=== FILE: README.md ===
# Load-test tooling core: cluster sampling and run-health classification

This project is a Dafny model of the two pieces of deterministic logic in a
Kubernetes load-testing toolkit. It proves properties of both.

- **Cluster sampling** (`monitor_k8s.py`, `get_metrics`). Each sample runs
  up to three `kubectl` commands:
  - `get pods` for the backend pods;
  - `top nodes` for node rows and their CPU percentage;
  - `get nodes`, a fallback node count used only when `top nodes` failed.

  The sample is the triple (pod count, node count, average CPU percent),
  or `(0, 0, 0)` when anything raises. The model takes each command's
  outcome as an input: `Exited(returnCode, stdout)`, where `stdout` is the
  decoded text Python returns, or `Raised` when `subprocess.run` raised. `GetMetrics` returns the triple together
  with the list of commands it issued.
- **Progressive load suite** (`locust_old/run_progressive.py`). The driver
  runs every user profile at every load level, profile by profile. It
  prints a status right after each run and repeats it in a final table.
  The status comes from the failure percentage and the average latency,
  through a ladder where later tests overwrite earlier ones:
  - Pass, then Errors (over 1% failures);
  - Slow (average over 2000 ms);
  - Crash (over 20% failures).

  A run without statistics is shown as Failed. A run whose `run_test`
  raises anything but a non-zero exit of Locust (no `locust` on the path,
  an OS error creating the output directory) ends the driver there: no
  feedback line for that run and no table.

The Python string operations the sampler relies on are modelled in module
`Text`:
- `strip()`;
- `split('\n')`;
- `split()`;
- `replace('%', '')`;
- `isdigit()`;
- `int()` and `str()` on natural numbers.

Whitespace is Python's ASCII whitespace (`\t \n \v \f \r`, `\x1c`–`\x1f`,
space). Digits are ASCII digits.

Modules:
- `Text` (`text.dfy`) holds the string helpers.
- `Monitor` (`monitor.dfy`) models `get_metrics`.
- `Progressive` (`progressive.dfy`) models the ladder, the feedback line,
  the table verdict, the suite order and the CSV prefixes.

## Model

| member | source | states |
|---|---|---|
| Monitor.CountLines | monitor_k8s.py:21-22 | The pod count of a successful listing is the number of non-blank lines of the raw output. The `strip()` before the split never changes it. Whitespace-only output, including empty output, counts 0. |
| Monitor.PodCountOfListing | monitor_k8s.py:18-22 | Without an exception, a listing that exits non-zero gives 0 pods. Otherwise the count is the number of non-blank lines of its output. |
| Monitor.GetMetrics | monitor_k8s.py:13-59 | The pod listing is always issued first. `top nodes` is issued exactly when the listing did not raise. `get nodes` is issued exactly when `top nodes` ran and exited non-zero. Any issued command raising yields `(0, 0, 0)`. A node count of 0 gives an average of 0. |
| Monitor.NodesFromTop | monitor_k8s.py:33-36 | When `top nodes` succeeds, the node count is the number of non-blank lines of its output, whether or not each row's CPU column parses. |
| Monitor.RowDecomposes | monitor_k8s.py:39 | Every line is some indentation followed by columns, each column followed by its own whitespace run, with only the last run possibly empty. So the row lemmas below cover every line. |
| Monitor.RowCpuOfRow | monitor_k8s.py:38-44 | A row whose third column becomes a digit string once every `%` is removed contributes exactly the number those digits spell. This holds however wide the whitespace between columns, with any indentation and any further columns. |
| Monitor.PercentColumn | monitor_k8s.py:42 | A column of digits with `%` signs before or after them is one whitespace-free token. Removing every `%` from it leaves exactly the digits. |
| Monitor.ThirdToken | monitor_k8s.py:39-40 | Splitting a row padded into columns by whitespace runs of any width gives at least three tokens, and the third is the third column. |
| Monitor.RowCpuRejects | monitor_k8s.py:40-44 | A row whose third column is not a digit string once its `%` signs are removed contributes 0. Examples are `<unknown>`, `6.5%` and a bare `%`. |
| Monitor.ShortRowAddsNothing | monitor_k8s.py:40 | A row with fewer than three columns contributes 0. |
| Monitor.PercentAnywhere | monitor_k8s.py:42-43 | A column of digits and `%` signs in any order, with at least one digit, passes the `isdigit()` test once the `%` signs are removed. This includes `6%5`, which becomes `65`. |
| Monitor.RowCpuIgnoresIndent | monitor_k8s.py:39 | Leading whitespace on a row never changes what it contributes. |
| Monitor.CpuTotalPermutation | monitor_k8s.py:31-44 | The CPU total is the same for any reordering of the rows. |
| Monitor.RowOrderIrrelevant | monitor_k8s.py:33-54 | Two `top nodes` outputs whose non-blank rows are permutations of each other give the same node count and average. |
| Monitor.SumByPermutation | monitor_k8s.py:38-44 | A sum of non-negative contributions is independent of the order of its summands. |
| Monitor.MaxBy | monitor_k8s.py:38-44 | The largest contribution bounds every row's contribution and is attained by some row when there is one. |
| Monitor.AverageFromTop | monitor_k8s.py:54 | When `top nodes` succeeds, the average times the node count equals the CPU total of the rows. This also holds with no rows, where both sides are 0. |
| Monitor.AverageTimesCount | monitor_k8s.py:54 | The average times the count gives back the total, with an average of 0 over no nodes. |
| Monitor.AverageBelowMaxFromTop | monitor_k8s.py:38-54 | When `top nodes` succeeds, the average is at most the largest single-row contribution. |
| Monitor.CpuTotalBound | monitor_k8s.py:38-44 | The CPU total is at most the number of rows times the largest contribution. |
| Monitor.NodesFromFallback | monitor_k8s.py:47-54 | When `top nodes` fails and `get nodes` exits, the node count is the number of non-blank lines `get nodes` printed. It is 0 if `get nodes` exited non-zero. The average is 0 because the CPU total stays 0 on this path. |
| Monitor.FallbackIgnoredUnlessTopFailed | monitor_k8s.py:46-52 | Unless `top nodes` ran and failed, whatever `get nodes` would answer has no influence on the sample. |
| Monitor.EmptyTopGivesNoNodes | monitor_k8s.py:33-54 | A successful `top nodes` that prints only whitespace gives node count 0 and average 0. No fallback is issued. |
| Text.StripDecomposes | monitor_k8s.py:21 | `strip()` removes only whitespace. The text is blank, then the stripped text, then blank. The stripped text starts and ends with non-whitespace. |
| Text.SplitJoinRoundTrip | monitor_k8s.py:21 | Joining the pieces of `split('\n')` with `'\n'` gives back the text, and no piece contains the separator. |
| Text.SplitOnAppend | monitor_k8s.py:21 | Splitting a concatenation glues the last piece of the left part to the first piece of the right part. |
| Text.StripKeepsLineCount | monitor_k8s.py:21-22 | The number of non-blank lines after `strip()` and the split equals the number in the raw text. |
| Text.CountThroughStrip | monitor_k8s.py:21-22 | Blank text on both sides of a text never changes its number of non-blank lines. |
| Text.NonBlankAppend | monitor_k8s.py:22 | The non-blank filter distributes over concatenation. |
| Text.TokensPadded | monitor_k8s.py:39 | `split()` gives back the words of a text in which each word is followed by its own run of whitespace of any width. Only the run after the last word may be empty, and any whitespace may lead. |
| Text.PaddedDecomposes | monitor_k8s.py:39 | Every text that is empty or starts with non-whitespace is some words, each followed by its own whitespace run, with only the last run possibly empty. |
| Text.TokensWordGap | monitor_k8s.py:39 | A word followed by a non-empty whitespace run is the first token, and the run is skipped. |
| Text.TokensSkipBlank | monitor_k8s.py:39 | Leading whitespace never changes what `split()` returns. |
| Text.RemoveAll | monitor_k8s.py:42 | `replace('%', '')` leaves no `%` and keeps every other character with its multiplicity. A string without `%` is unchanged. |
| Text.RemoveAllAppend | monitor_k8s.py:42 | Removing a character distributes over concatenation. |
| Text.DecimalRoundTrip | monitor_k8s.py:43-44 | `int(str(n)) == n` for every natural number. |
| Progressive.FailPctAbove | locust_old/run_progressive.py:94 | With requests, the failure percentage exceeds a threshold `t` exactly when `100 * fails > t * reqs`. |
| Progressive.ClassifyByPrecedence | locust_old/run_progressive.py:97-100 | The overwriting ladder equals first-match precedence over exact integer comparisons. Crash wins when over 20% failed. Otherwise Slow wins when the average is over 2000 ms. Otherwise the status is Errors when over 1% failed, and Pass otherwise. |
| Progressive.NoRequests | locust_old/run_progressive.py:94-100 | With no requests the failure percentage is 0, so the status is Slow or Pass according to latency only. |
| Progressive.CrashWhateverLatency | locust_old/run_progressive.py:100 | Over 20% failures is Crash whatever the latency. |
| Progressive.SlowHidesErrors | locust_old/run_progressive.py:98-99 | A slow run with between 1% and 20% failures is reported Slow, not Errors. |
| Progressive.MoreFailuresNoBetter | locust_old/run_progressive.py:97-100 | With requests and latency fixed, more failures never lower the severity Pass < Errors < Slow < Crash. |
| Progressive.SlowerNoBetter | locust_old/run_progressive.py:97-100 | With the counts fixed, a slower average never lowers the severity. |
| Progressive.Feedback | locust_old/run_progressive.py:120-128 | The line after a run is Failed exactly when no statistics were found. |
| Progressive.TableVerdict | locust_old/run_progressive.py:90-100 | A table row is Failed exactly when its entry has no statistics. |
| Progressive.TableAgreesWithFeedback | locust_old/run_progressive.py:90-128 | The table verdict of the entry for profile `i` at level `j` equals the verdict printed right after that run. |
| Progressive.ProfileEntries | locust_old/run_progressive.py:115-135 | One profile contributes one entry per level, in level order. Each entry carries the profile name, load description, user count and looked-up statistics. |
| Progressive.SuiteLength | locust_old/run_progressive.py:112-135 | When every run returns, the results list has one entry per profile and level. |
| Progressive.SuiteEntry | locust_old/run_progressive.py:112-135 | Profile-major order: the entry for profile `i` at level `j` is at position `i * levels + j`. |
| Progressive.SuiteHasAllRuns | locust_old/run_progressive.py:13-29 | When every run returns, the driver's 4 profiles and 6 levels give 24 entries. |
| Progressive.ProfileRun | locust_old/run_progressive.py:115-135 | One profile's runs record a prefix of that profile's entries, and all of them when the profile's runs complete. |
| Progressive.ProfileRunFinishes | locust_old/run_progressive.py:115-116 | One profile's runs complete exactly when none of its `run_test` calls raises. |
| Progressive.ProfileRunStops | locust_old/run_progressive.py:115-116 | When a run of one profile raises, the entries recorded are exactly those of the levels before it. |
| Progressive.Drive | locust_old/run_progressive.py:106-141 | The entries the driver records are always a prefix of the full results list, and the whole of it when the driver gets through. |
| Progressive.DriveFinishes | locust_old/run_progressive.py:106-141 | The driver gets through every run, and so prints the table, exactly when no `run_test` call raises. |
| Progressive.DriveStops | locust_old/run_progressive.py:112-116 | When a run raises, that run is named. The driver has recorded exactly the entries of the runs before it in profile-major order, with no entry for the raising run, and prints no table. |
| Progressive.DriverRecordsAllRuns | locust_old/run_progressive.py:106-141 | When no run raises, the driver records all 24 runs and reaches the table. |
| Progressive.CsvPrefixInjective | locust_old/run_progressive.py:35 | Two runs share a CSV prefix only if they run the same user class with the same user count. This holds for any class name, including one that contains underscores or ends in digits. |
| Progressive.DigitSuffixAfterUnderscore | locust_old/run_progressive.py:35 | In a prefix, the digits after the last underscore are exactly its final run of digits, whatever the class name holds. |
| Progressive.RunPrefixesDistinct | locust_old/run_progressive.py:31-35 | In a suite whose classes and user counts are pairwise distinct, different runs use different CSV prefixes. No other condition is placed on the class names. |
| Progressive.DriverPrefixesDistinct | locust_old/run_progressive.py:13-35 | The driver's 24 runs use 24 different CSV prefixes. No run reads statistics from another run's prefix. |

## Left out

- Running `kubectl` and `locust` (`subprocess.run`), `time.sleep`, and
  `os.makedirs`. These are I/O. Each `kubectl` outcome is an input. For a
  Locust run, two inputs stand in: `raises`, whether `run_test` raised, and
  `outcome`, the statistics found afterwards. A non-zero exit of Locust is
  caught by `run_test` and shows up only through `outcome`.
- `get_stats` (`locust_old/run_progressive.py:57-76`), which reads the
  `Aggregated` row of a CSV file. It is file I/O through the `csv` library.
  It appears as the `outcome` parameter of `Progressive.Suite` and
  `Progressive.Drive`, which returns the statistics or nothing.
- `run_test` (`locust_old/run_progressive.py:31-55`) is modelled only for
  the CSV prefix it returns and for whether it raises (the `raises`
  parameter of `Progressive.Drive`). The Locust command line is not
  modelled. Why it raises is not modelled either: the cases are a missing
  `locust` executable and an OS error from `os.makedirs`.
- Printing: the formatting of the table and feedback lines, the emoji
  status labels, and the error line `get_metrics` prints in its `except`
  branch (`monitor_k8s.py:58`). The model keeps only the verdict shown and
  the values returned.
- The `main` loops of `monitor_k8s.py` that write samples to a CSV file
  every two seconds. They are I/O and timing.
- The locustfiles, `locust/run_hpa.py`, `run_suite.py`, and the Java mail
  services. They are HTTP behaviour, process launching and library calls.
- Monitor.AverageFromTop: `round(total / nodes, 2)` is not modelled. The
  average is the exact quotient, so the product identity holds exactly
  rather than up to rounding.
- Progressive.FailPctAbove: the failure percentage is the exact rational
  `fails / reqs * 100`. Python's floating-point division could round
  differently exactly at the 1% and 20% boundaries.
- Progressive.Classify compares `avg_ms` as a real number, not a Python
  float.
- Text.IsSpace and Text.IsDigit follow ASCII only. Python's `isspace`
  also accepts Unicode spaces. Its `isdigit` also accepts characters such
  as superscript digits, on which `int()` raises and sends `get_metrics` to
  its `except` branch with `(0, 0, 0)`. That path is not modelled.
- Monitor.RowCpu: `int()` is modelled without CPython's limit on the
  length of decimal strings (4300 digits by default from Python 3.11). On a
  longer digit column `int()` raises, and `get_metrics` returns `(0, 0, 0)`
  from its `except` branch. The model adds the number instead.
- Python's truthiness of `stats`: `get_stats` returns either `None` or a
  dictionary with five keys, which is always true. The model therefore
  uses `Option`.

=== FILE: monitor.dfy ===
/**
  One sample of the cluster monitor (`get_metrics` in `monitor_k8s.py`):
  count the backend pods, count the nodes and average their CPU percentage,
  from the text three `kubectl` invocations print.

  Running a command is not modelled: each invocation is an input that says
  whether `subprocess.run` raised and, if not, the exit code and the decoded
  standard output it returned.
 */
module Monitor {
  import opened Text

  /** The outcome of one `subprocess.run` call: it returned, with the exit
      code and the decoded text Python gives as standard output, or it raised
      (no `kubectl` on the path, an OS error, output that does not decode),
      which sends `get_metrics` to its `except` branch. */
  datatype CommandResult = Exited(returnCode: int, stdout: string) | Raised

  /** The three commands, in the order `get_metrics` may issue them:
      `kubectl get pods -l app=heath-backend -n default --no-headers`,
      `kubectl top nodes --no-headers` and `kubectl get nodes --no-headers`. */
  datatype Command = GetPods | TopNodes | GetNodes

  /** The triple `get_metrics` returns: pod count, node count, average node CPU percent. */
  datatype Metrics = Metrics(podCount: nat, nodeCount: nat, avgCpu: real)

  /** What the `except` branch returns. */
  const NoMetrics := Metrics(0, 0, 0.0)

  /** One call of `get_metrics`: its result and the commands it issued. */
  datatype Poll = Poll(metrics: Metrics, issued: seq<Command>)

  // ---------------------------------------------------------------------------
  // Counting lines
  // ---------------------------------------------------------------------------

  /** `len([l for l in out.strip().split('\n') if l.strip()])`: the number of
      lines of `text` that are not whitespace only. */
  function CountLines(text: string): (n: nat)
    ensures n == |NonBlank(SplitOn(text, '\n'))|
    ensures IsBlank(text) ==> n == 0
  {
    StripKeepsLineCount(text);
    if IsBlank(text) then
      SplitBlankPieces(text, '\n');
      NonBlankOfBlanks(SplitOn(text, '\n'));
      |Lines(text)|
    else
      |Lines(text)|
  }

  // ---------------------------------------------------------------------------
  // The CPU% column of `kubectl top nodes`
  // ---------------------------------------------------------------------------

  /** What one row of `kubectl top nodes` adds to the CPU total: its third
      whitespace-separated column with every `%` removed, read as a number
      when what is left is a non-empty run of digits, and 0 otherwise. */
  function RowCpu(line: string): nat {
    var parts := Tokens(line);
    if |parts| >= 3 then
      var digits := RemoveAll(parts[2], '%');
      if IsDigitString(digits) then DecimalValue(digits) else 0
    else 0
  }

  /** A row as `kubectl top nodes` prints it: optional indentation, then
      the columns, each followed by its own run of whitespace (only the
      run after the last column may be empty). */
  predicate RowShape(lead: string, columns: seq<string>, gaps: seq<string>) {
    IsBlank(lead) && Words(columns) && |gaps| == |columns| && GoodGaps(gaps)
  }

  /** Every row has that shape: its indentation, then its columns, each
      followed by the whitespace after it. */
  lemma RowDecomposes(line: string) returns (lead: string, columns: seq<string>, gaps: seq<string>)
    ensures RowShape(lead, columns, gaps)
    ensures line == lead + Padded(columns, gaps)
  {
    var n := LeadingBlank(line);
    lead := line[..n];
    columns, gaps := PaddedDecomposes(line[n..]);
    assert line == lead + line[n..];
  }

  /** A row whose third column, once every `%` is dropped, is the digit
      string `digits` contributes exactly the number `digits` spells,
      however the columns are aligned and whatever the other columns hold. */
  lemma RowCpuOfRow(lead: string, columns: seq<string>, gaps: seq<string>, digits: string)
    requires RowShape(lead, columns, gaps) && |columns| >= 3
    requires IsDigitString(digits) && RemoveAll(columns[2], '%') == digits
    ensures RowCpu(lead + Padded(columns, gaps)) == DecimalValue(digits)
  {
    ThirdToken(lead, columns, gaps);
  }

  /** A row whose third column is not digits once the `%` signs are
      dropped (`<unknown>`, `6.5%`, a bare `%`) contributes nothing. */
  lemma RowCpuRejects(lead: string, columns: seq<string>, gaps: seq<string>)
    requires RowShape(lead, columns, gaps) && |columns| >= 3
    requires !IsDigitString(RemoveAll(columns[2], '%'))
    ensures RowCpu(lead + Padded(columns, gaps)) == 0
  {
    ThirdToken(lead, columns, gaps);
  }

  /** A row with fewer than three columns contributes nothing. */
  lemma ShortRowAddsNothing(lead: string, columns: seq<string>, gaps: seq<string>)
    requires RowShape(lead, columns, gaps) && |columns| < 3
    ensures RowCpu(lead + Padded(columns, gaps)) == 0
  {
    TokensPadded(lead, columns, gaps);
  }

  /** `split()` of a padded row gives its columns, so the third token is the
      third column. */
  lemma ThirdToken(lead: string, columns: seq<string>, gaps: seq<string>)
    requires RowShape(lead, columns, gaps) && |columns| >= 3
    ensures var parts := Tokens(lead + Padded(columns, gaps));
            |parts| >= 3 && parts[2] == columns[2]
  {
    TokensPadded(lead, columns, gaps);
  }

  /** Only digits and `%` signs, in any order. */
  predicate PercentText(column: string) {
    forall i :: 0 <= i < |column| ==> IsDigit(column[i]) || column[i] == '%'
  }

  /** A column of digits with `%` signs anywhere among them, `6%5` as well
      as `65%`, becomes a digit string once the `%` signs are removed. */
  lemma PercentAnywhere(column: string, i: nat)
    requires PercentText(column)
    requires i < |column| && IsDigit(column[i])
    ensures IsDigitString(RemoveAll(column, '%'))
  {
    var r := RemoveAll(column, '%');
    assert column[i] in multiset(column);
    assert column[i] in multiset(r);
    forall k | 0 <= k < |r| ensures IsDigit(r[k]) {
      assert r[k] in multiset(r);
      assert r[k] in multiset(column);
      var j :| 0 <= j < |column| && column[j] == r[k];
    }
  }

  /** A percentage column: digits with any number of `%` signs around them
      is one token, and removing the `%` signs leaves the digits. */
  lemma PercentColumn(before: string, digits: string, after: string)
    requires forall i :: 0 <= i < |before| ==> before[i] == '%'
    requires IsDigitString(digits)
    requires forall i :: 0 <= i < |after| ==> after[i] == '%'
    ensures var column := before + digits + after;
            |column| > 0 && NoSpace(column) && RemoveAll(column, '%') == digits
  {
    PercentColumnNoSpace(before, digits, after);
    PercentColumnDigits(before, digits, after);
  }

  lemma PercentColumnNoSpace(before: string, digits: string, after: string)
    requires forall i :: 0 <= i < |before| ==> before[i] == '%'
    requires IsDigitString(digits)
    requires forall i :: 0 <= i < |after| ==> after[i] == '%'
    ensures NoSpace(before + digits + after)
  {
    var column := before + digits + after;
    forall i | 0 <= i < |column| ensures !IsSpace(column[i]) {
      if i < |before| {
        assert column[i] == before[i];
      } else if i < |before| + |digits| {
        assert column[i] == digits[i - |before|];
      } else {
        assert column[i] == after[i - |before| - |digits|];
      }
    }
  }

  lemma PercentColumnDigits(before: string, digits: string, after: string)
    requires forall i :: 0 <= i < |before| ==> before[i] == '%'
    requires AllDigits(digits)
    requires forall i :: 0 <= i < |after| ==> after[i] == '%'
    ensures RemoveAll(before + digits + after, '%') == digits
  {
    RemoveAllAppend(before + digits, after, '%');
    RemoveAllAppend(before, digits, '%');
    OnlyPercentRemoved(before);
    OnlyPercentRemoved(after);
    DigitsHaveNoPercent(digits);
    assert "" + digits + "" == digits;
  }

  lemma DigitsHaveNoPercent(digits: string)
    requires AllDigits(digits)
    ensures RemoveAll(digits, '%') == digits
  {
    assert forall i :: 0 <= i < |digits| ==> digits[i] != '%';
  }

  lemma OnlyPercentRemoved(s: string)
    requires forall i :: 0 <= i < |s| ==> s[i] == '%'
    ensures RemoveAll(s, '%') == ""
  {
    var r := RemoveAll(s, '%');
    forall x | x != '%' ensures multiset(s)[x] == 0 {
      assert x !in s;
    }
    assert multiset(r) == multiset{};
  }

  /** Indentation in front of a row never changes its contribution. */
  lemma RowCpuIgnoresIndent(w: string, line: string)
    requires IsBlank(w)
    ensures RowCpu(w + line) == RowCpu(line)
  {
    TokensSkipBlank(w, line);
  }

  // ---------------------------------------------------------------------------
  // Summing and averaging
  // ---------------------------------------------------------------------------

  /** The sum of `value` over `xs`, taken left to right. */
  function SumBy<T>(xs: seq<T>, value: T -> nat): nat
    decreases |xs|
  {
    if |xs| == 0 then 0 else value(xs[0]) + SumBy(xs[1..], value)
  }

  /** A sum does not depend on the order of its summands. */
  lemma {:induction false} SumByPermutation<T>(a: seq<T>, b: seq<T>, value: T -> nat)
    requires multiset(a) == multiset(b)
    ensures SumBy(a, value) == SumBy(b, value)
    decreases |a|
  {
    if |a| > 0 {
      var i := PermutationTail(a, b);
      SumByPermutation(a[1..], b[..i] + b[i + 1..], value);
      SumByWithout(b, i, value);
    } else {
      assert |multiset(b)| == 0;
    }
  }

  /** Matching the head of `a` with an equal element of its permutation `b`:
      what remains of each is again a permutation of the other. */
  lemma PermutationTail<T>(a: seq<T>, b: seq<T>) returns (i: nat)
    requires |a| > 0 && multiset(a) == multiset(b)
    ensures i < |b| && b[i] == a[0]
    ensures multiset(a[1..]) == multiset(b[..i] + b[i + 1..])
  {
    assert a[0] in b by {
      assert a[0] in multiset(a);
    }
    i :| 0 <= i < |b| && b[i] == a[0];
    MultisetWithout(b, i);
    assert multiset(a) == multiset{a[0]} + multiset(a[1..]) by {
      assert a == [a[0]] + a[1..];
    }
  }

  /** Taking one summand out of a sum. */
  lemma {:induction false} SumByWithout<T>(b: seq<T>, i: nat, value: T -> nat)
    requires i < |b|
    ensures SumBy(b, value) == value(b[i]) + SumBy(b[..i] + b[i + 1..], value)
    decreases i
  {
    if i == 0 {
      assert b[..0] + b[1..] == b[1..];
    } else {
      var t := b[1..];
      SumByWithout(t, i - 1, value);
      assert b[..i] + b[i + 1..] == [b[0]] + (t[..i - 1] + t[i..]);
    }
  }

  lemma MultisetWithout<T>(s: seq<T>, i: nat)
    requires i < |s|
    ensures multiset(s[..i] + s[i + 1..]) == multiset(s) - multiset{s[i]}
  {
    assert s == s[..i] + [s[i]] + s[i + 1..];
  }

  /** The largest value of `value` over `xs` (0 for no elements). */
  function MaxBy<T>(xs: seq<T>, value: T -> nat): (m: nat)
    ensures forall k :: 0 <= k < |xs| ==> value(xs[k]) <= m
    ensures |xs| > 0 ==> exists k :: 0 <= k < |xs| && value(xs[k]) == m
    decreases |xs|
  {
    if |xs| == 0 then 0
    else
      var rest := MaxBy(xs[1..], value);
      assert forall k :: 1 <= k < |xs| ==> xs[k] == xs[1..][k - 1];
      if value(xs[0]) >= rest then value(xs[0]) else rest
  }

  /** No summand exceeds the largest one, so the sum is at most the number of
      summands times that. */
  lemma {:induction false} SumByBound<T>(xs: seq<T>, value: T -> nat)
    ensures SumBy(xs, value) <= |xs| * MaxBy(xs, value)
    decreases |xs|
  {
    if |xs| > 0 {
      var m := MaxBy(xs, value);
      var rest := xs[1..];
      var m' := MaxBy(rest, value);
      SumByBound(rest, value);
      assert m' <= m by {
        if |rest| > 0 {
          var k :| 0 <= k < |rest| && value(rest[k]) == m';
          assert rest[k] == xs[k + 1];
        }
      }
      MulStep(|rest|, m', m);
    }
  }

  /** `n * a + b <= (n + 1) * b` when `a <= b`. */
  lemma MulStep(n: nat, a: nat, b: nat)
    requires a <= b
    ensures n * a + b <= (n + 1) * b
  {
    assert n * a <= n * b;
    assert (n + 1) * b == n * b + b;
  }

  /** The loop `total_cpu += int(cpu_val)` over the rows, in order. */
  function CpuTotal(lines: seq<string>): nat {
    SumBy(lines, RowCpu)
  }

  /** The CPU total does not depend on the order the rows come in. */
  lemma CpuTotalPermutation(a: seq<string>, b: seq<string>)
    requires multiset(a) == multiset(b)
    ensures CpuTotal(a) == CpuTotal(b)
  {
    SumByPermutation(a, b, RowCpu);
  }

  /** The largest single-row contribution (0 for no rows). */
  function MaxRowCpu(lines: seq<string>): nat {
    MaxBy(lines, RowCpu)
  }

  /** `round(total / nodes, 2) if nodes > 0 else 0`, without the rounding. */
  function Average(total: nat, nodes: nat): real {
    if nodes > 0 then total as real / nodes as real else 0.0
  }

  /** An average never exceeds a bound every summand respects. */
  lemma AverageAtMost(total: nat, nodes: nat, bound: nat)
    requires total <= nodes * bound
    ensures Average(total, nodes) <= bound as real
  {
    if nodes > 0 {
      var avg := Average(total, nodes);
      var n := nodes as real;
      var b := bound as real;
      assert avg * n <= b * n;
      assert (b - avg) * n >= 0.0;
    }
  }

  // ---------------------------------------------------------------------------
  // get_metrics
  // ---------------------------------------------------------------------------

  /** Whether `get_metrics` asks `kubectl get nodes` for a node count: only
      when `kubectl top nodes` ran and exited non-zero. */
  predicate TopFailed(top: CommandResult) {
    top.Exited? && top.returnCode != 0
  }

  /** Whether a command that `get_metrics` issues raises, ending in the
      `except` branch. */
  predicate Raises(pods: CommandResult, top: CommandResult, nodes: CommandResult) {
    pods.Raised? || top.Raised? || (TopFailed(top) && nodes.Raised?)
  }

  /** The pod count from the listing's outcome: 0 when it exited non-zero. */
  function PodCount(pods: CommandResult): nat
    requires pods.Exited?
  {
    if pods.returnCode != 0 then 0 else CountLines(pods.stdout)
  }

  /** The rows of `top nodes` that count as nodes: its non-blank lines when
      it exited 0, none otherwise. */
  function TopRows(top: CommandResult): seq<string>
    requires top.Exited?
  {
    if top.returnCode == 0 then Lines(top.stdout) else []
  }

  /** One sample from the outcomes of the pod listing, `top nodes` and the
      `get nodes` fallback (the last is looked at only when it is issued). */
  function GetMetrics(pods: CommandResult, top: CommandResult, nodes: CommandResult): (p: Poll)
    // the pod listing always comes first; `top nodes` follows unless it raised
    ensures |p.issued| > 0 && p.issued[0] == GetPods
    ensures TopNodes in p.issued <==> pods.Exited?
    // the fallback is issued exactly when `top nodes` ran and failed
    ensures GetNodes in p.issued <==> pods.Exited? && TopFailed(top)
    // any issued command raising gives the all-zero triple
    ensures Raises(pods, top, nodes) ==> p.metrics == NoMetrics
    // no node count means no average
    ensures p.metrics.nodeCount == 0 ==> p.metrics.avgCpu == 0.0
  {
    if pods.Raised? then Poll(NoMetrics, [GetPods])
    else
      var podCount := PodCount(pods);
      if top.Raised? then Poll(NoMetrics, [GetPods, TopNodes])
      else
        var rows := TopRows(top);
        var nodeCount := |rows|;
        var total := CpuTotal(rows);
        if nodeCount == 0 && top.returnCode != 0 then
          if nodes.Raised? then Poll(NoMetrics, [GetPods, TopNodes, GetNodes])
          else
            var counted := if nodes.returnCode == 0 then CountLines(nodes.stdout) else 0;
            Poll(Metrics(podCount, counted, Average(total, counted)), [GetPods, TopNodes, GetNodes])
        else
          Poll(Metrics(podCount, nodeCount, Average(total, nodeCount)), [GetPods, TopNodes])
  }

  /** Without an exception, the pod count is 0 when the listing exited
      non-zero and otherwise the number of non-blank lines it printed. */
  lemma PodCountOfListing(pods: CommandResult, top: CommandResult, nodes: CommandResult)
    requires !Raises(pods, top, nodes)
    ensures GetMetrics(pods, top, nodes).metrics.podCount
         == if pods.returnCode != 0 then 0 else |NonBlank(SplitOn(pods.stdout, '\n'))|
  {
  }

  /** When `top nodes` succeeds, the sample is built from its non-blank rows. */
  lemma TopSample(pods: CommandResult, top: CommandResult, nodes: CommandResult)
    requires pods.Exited? && top.Exited? && top.returnCode == 0
    ensures var rows := Lines(top.stdout);
            GetMetrics(pods, top, nodes).metrics
              == Metrics(PodCount(pods), |rows|, Average(CpuTotal(rows), |rows|))
  {
  }

  /** When `top nodes` succeeds, every non-blank row it prints is a node,
      whether or not its CPU column parses. */
  lemma NodesFromTop(pods: CommandResult, top: CommandResult, nodes: CommandResult)
    requires pods.Exited? && top.Exited? && top.returnCode == 0
    ensures GetMetrics(pods, top, nodes).metrics.nodeCount == |NonBlank(SplitOn(top.stdout, '\n'))|
  {
    TopSample(pods, top, nodes);
    StripKeepsLineCount(top.stdout);
  }

  /** When `top nodes` succeeds, the average times the node count is the CPU
      total of the rows. */
  lemma AverageFromTop(pods: CommandResult, top: CommandResult, nodes: CommandResult)
    requires pods.Exited? && top.Exited? && top.returnCode == 0
    ensures IsAverage(GetMetrics(pods, top, nodes).metrics, CpuTotal(Lines(top.stdout)))
  {
    var total := CpuTotal(Lines(top.stdout));
    TopSample(pods, top, nodes);
    var m := GetMetrics(pods, top, nodes).metrics;
    ProductOfAverage(m, total);
  }

  /** A sample whose average is taken over its own node count gives back
      the total when multiplied by that count. */
  lemma ProductOfAverage(m: Metrics, total: nat)
    requires m.avgCpu == Average(total, m.nodeCount)
    requires m.nodeCount == 0 ==> total == 0
    ensures IsAverage(m, total)
  {
    AverageTimesCount(total, m.nodeCount);
  }

  /** `m.avgCpu` times the node count gives back `total`. */
  predicate IsAverage(m: Metrics, total: nat) {
    m.avgCpu * m.nodeCount as real == total as real
  }

  /** When `top nodes` succeeds, the average is no more than the largest
      single-row contribution. */
  lemma AverageBelowMaxFromTop(pods: CommandResult, top: CommandResult, nodes: CommandResult)
    requires pods.Exited? && top.Exited? && top.returnCode == 0
    ensures GetMetrics(pods, top, nodes).metrics.avgCpu <= MaxRowCpu(Lines(top.stdout)) as real
  {
    TopSample(pods, top, nodes);
    AverageAtMostMax(Lines(top.stdout));
  }

  /** The average CPU of some rows is at most the largest row's. */
  lemma AverageAtMostMax(rows: seq<string>)
    ensures Average(CpuTotal(rows), |rows|) <= MaxRowCpu(rows) as real
  {
    CpuTotalBound(rows);
    AverageAtMost(CpuTotal(rows), |rows|, MaxRowCpu(rows));
  }

  /** The CPU total is at most the node count times the largest row. */
  lemma CpuTotalBound(rows: seq<string>)
    ensures CpuTotal(rows) <= |rows| * MaxRowCpu(rows)
  {
    SumByBound(rows, RowCpu);
  }

  /** The average times the count gives back the total, also when there are none. */
  lemma AverageTimesCount(total: nat, nodes: nat)
    requires nodes == 0 ==> total == 0
    ensures Average(total, nodes) * nodes as real == total as real
    ensures nodes == 0 ==> Average(total, nodes) == 0.0
  {
    if nodes == 0 {
      assert Average(total, nodes) == 0.0;
    }
  }

  /** When `top nodes` fails and `get nodes` runs, the node count is the
      number of non-blank lines `get nodes` printed (0 if it failed too), and
      there is no CPU figure. */
  lemma NodesFromFallback(pods: CommandResult, top: CommandResult, nodes: CommandResult)
    requires pods.Exited? && TopFailed(top) && nodes.Exited?
    ensures var m := GetMetrics(pods, top, nodes).metrics;
            && m.nodeCount == (if nodes.returnCode == 0 then |NonBlank(SplitOn(nodes.stdout, '\n'))| else 0)
            && m.avgCpu == 0.0
  {
  }

  /** When `top nodes` did not fail, the answer `get nodes` would have given
      has no influence on the sample. */
  lemma FallbackIgnoredUnlessTopFailed(pods: CommandResult, top: CommandResult,
                                       nodes1: CommandResult, nodes2: CommandResult)
    requires !TopFailed(top)
    ensures GetMetrics(pods, top, nodes1) == GetMetrics(pods, top, nodes2)
  {
  }

  /** A successful `top nodes` that prints nothing but whitespace gives no
      nodes, no CPU figure and no fallback. */
  lemma EmptyTopGivesNoNodes(pods: CommandResult, top: CommandResult, nodes: CommandResult)
    requires pods.Exited? && top.Exited? && top.returnCode == 0 && IsBlank(top.stdout)
    ensures GetMetrics(pods, top, nodes).metrics.nodeCount == 0
    ensures GetMetrics(pods, top, nodes).metrics.avgCpu == 0.0
    ensures GetNodes !in GetMetrics(pods, top, nodes).issued
  {
    var n := CountLines(top.stdout);
  }

  /** Reordering the rows `top nodes` prints changes neither the node count
      nor the average. */
  lemma RowOrderIrrelevant(pods: CommandResult, out1: string, out2: string, nodes: CommandResult)
    requires pods.Exited?
    requires multiset(Lines(out1)) == multiset(Lines(out2))
    ensures GetMetrics(pods, Exited(0, out1), nodes).metrics
         == GetMetrics(pods, Exited(0, out2), nodes).metrics
  {
    CpuTotalPermutation(Lines(out1), Lines(out2));
    assert |Lines(out1)| == |Lines(out2)| by {
      assert |multiset(Lines(out1))| == |multiset(Lines(out2))|;
    }
  }
}

=== FILE: progressive.dfy ===
/** The progressive load-test driver: the health status each run is given,
    the table that repeats it, and the order in which the suite runs every
    user profile at every load level. */
module Progressive {
  import opened Text

  datatype Option<T> = None | Some(value: T)

  /** The aggregated row of one run's statistics file. */
  datatype Stats = Stats(reqs: int, fails: int, avgMs: real, p95Ms: real, rps: real)

  /** The health of a run that produced statistics. */
  datatype Status = Pass | Errors | Slow | Crash

  /** What is shown for a run: no statistics, or a status. */
  datatype Verdict = Failed | Rated(status: Status)

  /** Pass < Errors < Slow < Crash. */
  function Severity(st: Status): nat {
    match st
    case Pass => 0
    case Errors => 1
    case Slow => 2
    case Crash => 3
  }

  /** Failed requests as a percentage of all requests; 0 without requests. */
  function FailPct(s: Stats): (pct: real)
    ensures s.reqs <= 0 ==> pct == 0.0
  {
    if s.reqs > 0 then s.fails as real / s.reqs as real * 100.0 else 0.0
  }

  /** The ladder as the driver writes it: start at Pass and let each later
      test that fires overwrite the status. */
  function Classify(s: Stats): Status {
    var pct := FailPct(s);
    var status := Pass;
    var status := if pct > 1.0 then Errors else status;
    var status := if s.avgMs > 2000.0 then Slow else status;
    if pct > 20.0 then Crash else status
  }

  /** More than 20 percent of the requests failed, in integer terms. */
  predicate Crashed(s: Stats) {
    s.reqs > 0 && 100 * s.fails > 20 * s.reqs
  }

  /** More than 1 percent of the requests failed, in integer terms. */
  predicate Erroring(s: Stats) {
    s.reqs > 0 && 100 * s.fails > s.reqs
  }

  /** The statuses by precedence, first match wins: Crash, then Slow, then
      Errors, then Pass. */
  function Precedence(s: Stats): Status {
    if Crashed(s) then Crash
    else if s.avgMs > 2000.0 then Slow
    else if Erroring(s) then Errors
    else Pass
  }

  /** With requests, the percentage exceeds `t` exactly when 100 times the
      failures exceeds `t` times the requests. */
  lemma FailPctAbove(s: Stats, t: nat)
    requires s.reqs > 0
    ensures FailPct(s) > t as real <==> 100 * s.fails > t * s.reqs
  {
    var f := s.fails as real;
    var r := s.reqs as real;
    var q := f / r;
    assert q * r == f;
    assert FailPct(s) * r == 100.0 * f;
    assert (100 * s.fails) as real == 100.0 * f;
    assert (t * s.reqs) as real == t as real * r;
    if FailPct(s) > t as real {
      assert FailPct(s) * r > t as real * r;
    } else {
      assert FailPct(s) * r <= t as real * r;
    }
  }

  /** The overwriting ladder is the first-match precedence over exact
      integer comparisons. */
  lemma ClassifyByPrecedence(s: Stats)
    ensures Classify(s) == Precedence(s)
  {
    if s.reqs > 0 {
      FailPctAbove(s, 1);
      FailPctAbove(s, 20);
    }
  }

  /** Without requests nothing failed, so the status is Pass or Slow. */
  lemma NoRequests(s: Stats)
    requires s.reqs <= 0
    ensures Classify(s) == (if s.avgMs > 2000.0 then Slow else Pass)
  {
  }

  /** Latency never hides a crash: over 20 percent failures is Crash. */
  lemma CrashWhateverLatency(s: Stats)
    requires s.reqs > 0 && 100 * s.fails > 20 * s.reqs
    ensures Classify(s) == Crash
  {
    ClassifyByPrecedence(s);
  }

  /** A slow run with between 1 and 20 percent failures is reported Slow,
      not Errors. */
  lemma SlowHidesErrors(s: Stats)
    requires s.reqs > 0 && s.reqs < 100 * s.fails <= 20 * s.reqs
    requires s.avgMs > 2000.0
    ensures Classify(s) == Slow
  {
    ClassifyByPrecedence(s);
  }

  /** With requests and latency fixed, more failures never lower severity. */
  lemma MoreFailuresNoBetter(s: Stats, fails: int)
    requires s.fails <= fails
    ensures Severity(Classify(s)) <= Severity(Classify(s.(fails := fails)))
  {
    ClassifyByPrecedence(s);
    ClassifyByPrecedence(s.(fails := fails));
  }

  /** With the counts fixed, a slower average never lowers severity. */
  lemma SlowerNoBetter(s: Stats, avgMs: real)
    requires s.avgMs <= avgMs
    ensures Severity(Classify(s)) <= Severity(Classify(s.(avgMs := avgMs)))
  {
    ClassifyByPrecedence(s);
    ClassifyByPrecedence(s.(avgMs := avgMs));
  }

  /** The line printed right after a run: a status when statistics were
      found, "Failed to collect stats" otherwise. */
  function Feedback(stats: Option<Stats>): (v: Verdict)
    ensures v.Failed? <==> stats.None?
  {
    if stats.Some? then Rated(Classify(stats.value)) else Failed
  }

  /** A load level: users, spawn rate, run time and description. */
  datatype LoadLevel = LoadLevel(users: nat, spawnRate: nat, duration: string, description: string)

  /** A user profile: the Locust user class and its display name. */
  datatype Profile = Profile(userClass: string, name: string)

  const LoadLevels: seq<LoadLevel> := [
    LoadLevel(10, 2, "30s", "Tiny Load"),
    LoadLevel(50, 5, "30s", "Low Load"),
    LoadLevel(100, 10, "30s", "Mild Load"),
    LoadLevel(200, 20, "45s", "Medium Load"),
    LoadLevel(500, 30, "45s", "High Load"),
    LoadLevel(1000, 50, "1m", "Stress Load")
  ]

  const TestProfiles: seq<Profile> := [
    Profile("PublicUser", "Public Read/Network"),
    Profile("AuthenticatedUser", "Authentication & CPU"),
    Profile("SocialUser", "DB Concurrency"),
    Profile("JourneyUser", "Full User Journey")
  ]

  const OutputDir: string := "locust/results"

  /** The prefix of the CSV files a run writes and its statistics are read from. */
  function CsvPrefix(userClass: string, users: nat): string {
    OutputDir + "/" + userClass + "_" + DecimalString(users) + "u"
  }

  /** How many digits `s` ends with. */
  function DigitSuffix(s: string): (n: nat)
    ensures n <= |s|
    decreases |s|
  {
    if |s| > 0 && IsDigit(s[|s| - 1]) then 1 + DigitSuffix(s[..|s| - 1]) else 0
  }

  /** The digits after the last underscore are exactly the final run of
      digits, whatever the text before the underscore holds. */
  lemma {:induction false} DigitSuffixAfterUnderscore(c: string, d: string)
    requires AllDigits(d)
    ensures DigitSuffix(c + ['_'] + d) == |d|
    decreases |d|
  {
    var s := c + ['_'] + d;
    if |d| == 0 {
      assert s[|s| - 1] == '_';
    } else {
      assert s[|s| - 1] == d[|d| - 1];
      assert s[..|s| - 1] == c + ['_'] + d[..|d| - 1];
      DigitSuffixAfterUnderscore(c, d[..|d| - 1]);
    }
  }

  /** Two runs share a CSV prefix only when they run the same user class
      with the same number of users, whatever characters the class names
      hold. */
  lemma CsvPrefixInjective(c1: string, u1: nat, c2: string, u2: nat)
    requires CsvPrefix(c1, u1) == CsvPrefix(c2, u2)
    ensures c1 == c2 && u1 == u2
  {
    var d1, d2 := DecimalString(u1), DecimalString(u2);
    var q1, q2 := c1 + ['_'] + d1, c2 + ['_'] + d2;
    assert q1 == q2 by {
      AfterDir(c1, u1);
      AfterDir(c2, u2);
    }
    DigitSuffixAfterUnderscore(c1, d1);
    DigitSuffixAfterUnderscore(c2, d2);
    assert d1 == q1[|q1| - |d1|..];
    assert d2 == q2[|q2| - |d2|..];
    assert c1 == q1[..|c1|];
    assert c2 == q2[..|c2|];
    DecimalRoundTrip(u1);
    DecimalRoundTrip(u2);
  }

  /** A CSV prefix is the output directory, a slash and then the class,
      an underscore, the user count and a final `u`. */
  lemma AfterDir(c: string, u: nat)
    ensures var p := CsvPrefix(c, u);
            p[|OutputDir + "/"|..|p| - 1] == c + ['_'] + DecimalString(u)
  {
    var p := CsvPrefix(c, u);
    assert p == (OutputDir + "/") + (c + ['_'] + DecimalString(u)) + "u";
  }

  /** In a suite whose classes are told apart by name, and whose levels
      are told apart by user count, each run has a CSV prefix of its own. */
  lemma RunPrefixesDistinct(profiles: seq<Profile>, levels: seq<LoadLevel>,
                            i1: nat, j1: nat, i2: nat, j2: nat)
    requires ClassesApart(profiles)
    requires UsersApart(levels)
    requires i1 < |profiles| && i2 < |profiles| && j1 < |levels| && j2 < |levels|
    ensures CsvPrefix(profiles[i1].userClass, levels[j1].users)
            == CsvPrefix(profiles[i2].userClass, levels[j2].users)
            ==> i1 == i2 && j1 == j2
  {
    if CsvPrefix(profiles[i1].userClass, levels[j1].users)
       == CsvPrefix(profiles[i2].userClass, levels[j2].users) {
      CsvPrefixInjective(profiles[i1].userClass, levels[j1].users,
                         profiles[i2].userClass, levels[j2].users);
    }
  }

  /** No two profiles share a user class. */
  predicate ClassesApart(profiles: seq<Profile>) {
    forall a, b ::
      (0 <= a < |profiles| && 0 <= b < |profiles| && profiles[a].userClass == profiles[b].userClass)
      ==> a == b
  }

  /** No two levels share a user count. */
  predicate UsersApart(levels: seq<LoadLevel>) {
    forall a, b ::
      (0 <= a < |levels| && 0 <= b < |levels| && levels[a].users == levels[b].users)
      ==> a == b
  }

  /** The driver's user classes are told apart by name. */
  lemma DriverClasses()
    ensures ClassesApart(TestProfiles)
  {
    assert "PublicUser"[0] != "SocialUser"[0];
  }

  /** The driver's load levels are told apart by user count. */
  lemma DriverUsers()
    ensures UsersApart(LoadLevels)
  {
  }

  /** The driver's 24 runs write to 24 different CSV prefixes. */
  lemma DriverPrefixesDistinct(i1: nat, j1: nat, i2: nat, j2: nat)
    requires i1 < |TestProfiles| && i2 < |TestProfiles| && j1 < |LoadLevels| && j2 < |LoadLevels|
    ensures CsvPrefix(TestProfiles[i1].userClass, LoadLevels[j1].users)
            == CsvPrefix(TestProfiles[i2].userClass, LoadLevels[j2].users)
            ==> i1 == i2 && j1 == j2
  {
    DriverClasses();
    DriverUsers();
    RunPrefixesDistinct(TestProfiles, LoadLevels, i1, j1, i2, j2);
  }

  /** One entry of the results list. */
  datatype Entry = Entry(profile: string, load: string, users: nat, stats: Option<Stats>)

  /** The entry recorded for running profile `p` at level `l`, where
      `outcome` stands for running Locust and looking up the aggregated row
      of its statistics file. */
  function EntryFor(p: Profile, l: LoadLevel, outcome: (Profile, LoadLevel) -> Option<Stats>): Entry {
    Entry(p.name, l.description, l.users, outcome(p, l))
  }

  /** The entries of one profile, one per level in order. */
  function ProfileEntries(p: Profile, levels: seq<LoadLevel>,
                          outcome: (Profile, LoadLevel) -> Option<Stats>): (es: seq<Entry>)
    ensures |es| == |levels|
    ensures forall j :: 0 <= j < |levels| ==> es[j] == EntryFor(p, levels[j], outcome)
  {
    if levels == [] then []
    else [EntryFor(p, levels[0], outcome)] + ProfileEntries(p, levels[1..], outcome)
  }

  /** The results list of the suite when every run returns: for each
      profile, each level. */
  function Suite(profiles: seq<Profile>, levels: seq<LoadLevel>,
                 outcome: (Profile, LoadLevel) -> Option<Stats>): seq<Entry>
  {
    if profiles == [] then []
    else ProfileEntries(profiles[0], levels, outcome) + Suite(profiles[1..], levels, outcome)
  }

  /** The suite has one entry per profile and level. */
  lemma {:induction false} SuiteLength(profiles: seq<Profile>, levels: seq<LoadLevel>,
                                       outcome: (Profile, LoadLevel) -> Option<Stats>)
    ensures |Suite(profiles, levels, outcome)| == |profiles| * |levels|
  {
    if profiles != [] {
      SuiteLength(profiles[1..], levels, outcome);
      assert |profiles| * |levels| == |levels| + (|profiles| - 1) * |levels|;
    }
  }

  /** Profile-major order: the entry of profile `i` at level `j` sits at
      position `i * |levels| + j`. */
  lemma {:induction false} SuiteEntry(profiles: seq<Profile>, levels: seq<LoadLevel>,
                                      outcome: (Profile, LoadLevel) -> Option<Stats>, i: nat, j: nat)
    requires i < |profiles| && j < |levels|
    ensures i * |levels| + j < |Suite(profiles, levels, outcome)|
    ensures Suite(profiles, levels, outcome)[i * |levels| + j] == EntryFor(profiles[i], levels[j], outcome)
  {
    var head := ProfileEntries(profiles[0], levels, outcome);
    var tail := Suite(profiles[1..], levels, outcome);
    assert Suite(profiles, levels, outcome) == head + tail;
    if i == 0 {
      assert i * |levels| + j == j;
    } else {
      var i0 := i - 1;
      SuiteEntry(profiles[1..], levels, outcome, i0, j);
      NextRow(i0, |levels|, j);
      assert profiles[1..][i0] == profiles[i];
      IndexAfter(head, tail, Suite(profiles, levels, outcome), Slot(i0, |levels|, j));
    }
  }

  /** An index past `head` is an index into `tail`. */
  lemma IndexAfter<T>(head: seq<T>, tail: seq<T>, whole: seq<T>, n: nat)
    requires whole == head + tail && n < |tail|
    ensures |head| + n < |whole| && whole[|head| + n] == tail[n]
  {
  }

  /** The driver's suite has 4 profiles times 6 levels, 24 entries. */
  lemma SuiteHasAllRuns(outcome: (Profile, LoadLevel) -> Option<Stats>)
    ensures |Suite(TestProfiles, LoadLevels, outcome)| == 24
  {
    SuiteLength(TestProfiles, LoadLevels, outcome);
  }

  /** The table's verdict for an entry. */
  function TableVerdict(e: Entry): (v: Verdict)
    ensures v.Failed? <==> e.stats.None?
  {
    match e.stats
    case None => Failed
    case Some(stats) => Rated(Classify(stats))
  }

  /** The table reports every run with the verdict printed right after it. */
  lemma TableAgreesWithFeedback(profiles: seq<Profile>, levels: seq<LoadLevel>,
                                outcome: (Profile, LoadLevel) -> Option<Stats>, i: nat, j: nat)
    requires i < |profiles| && j < |levels|
    ensures i * |levels| + j < |Suite(profiles, levels, outcome)|
    ensures TableVerdict(Suite(profiles, levels, outcome)[i * |levels| + j])
         == Feedback(outcome(profiles[i], levels[j]))
  {
    SuiteEntry(profiles, levels, outcome, i, j);
  }

  // ---------------------------------------------------------------------------
  // A run that raises
  // ---------------------------------------------------------------------------

  /** How far the driver gets: the entries it recorded, and whether it got
      through every run, and so on to the table. */
  datatype Finish = Finish(entries: seq<Entry>, finished: bool)

  /** The runs of one profile, where `raises(p, l)` says that running `p`
      at `l` raised something other than a non-zero exit of Locust (no
      `locust` on the path, an OS error creating the output directory).
      Nothing catches that, so the driver stops before that run's entry. */
  function ProfileRun(p: Profile, levels: seq<LoadLevel>, raises: (Profile, LoadLevel) -> bool,
                      outcome: (Profile, LoadLevel) -> Option<Stats>): (f: Finish)
    ensures f.entries <= ProfileEntries(p, levels, outcome)
    ensures f.finished ==> f.entries == ProfileEntries(p, levels, outcome)
  {
    if levels == [] then Finish([], true)
    else if raises(p, levels[0]) then Finish([], false)
    else
      var rest := ProfileRun(p, levels[1..], raises, outcome);
      Finish([EntryFor(p, levels[0], outcome)] + rest.entries, rest.finished)
  }

  /** One profile's runs all complete exactly when none of them raises. */
  lemma {:induction false} ProfileRunFinishes(p: Profile, levels: seq<LoadLevel>, raises: (Profile, LoadLevel) -> bool,
                                              outcome: (Profile, LoadLevel) -> Option<Stats>)
    ensures ProfileRun(p, levels, raises, outcome).finished
            <==> forall j :: 0 <= j < |levels| ==> !raises(p, levels[j])
    decreases |levels|
  {
    if levels != [] && !raises(p, levels[0]) {
      ProfileRunFinishes(p, levels[1..], raises, outcome);
      assert forall j :: 1 <= j < |levels| ==> levels[1..][j - 1] == levels[j];
    }
  }

  /** The driver's loops: each profile's runs in turn, stopping at the first
      run that raises. */
  function Drive(profiles: seq<Profile>, levels: seq<LoadLevel>, raises: (Profile, LoadLevel) -> bool,
                 outcome: (Profile, LoadLevel) -> Option<Stats>): (f: Finish)
    ensures f.entries <= Suite(profiles, levels, outcome)
    ensures f.finished ==> f.entries == Suite(profiles, levels, outcome)
  {
    if profiles == [] then Finish([], true)
    else
      var first := ProfileRun(profiles[0], levels, raises, outcome);
      if !first.finished then Finish(first.entries, false)
      else
        var rest := Drive(profiles[1..], levels, raises, outcome);
        Finish(first.entries + rest.entries, rest.finished)
  }

  /** The driver gets through every run, and so prints the table, exactly
      when no run raises. */
  lemma {:induction false} DriveFinishes(profiles: seq<Profile>, levels: seq<LoadLevel>,
                                         raises: (Profile, LoadLevel) -> bool,
                                         outcome: (Profile, LoadLevel) -> Option<Stats>)
    ensures Drive(profiles, levels, raises, outcome).finished <==> NoRaise(profiles, levels, raises)
    decreases |profiles|
  {
    if profiles != [] {
      ProfileRunFinishes(profiles[0], levels, raises, outcome);
      if ProfileRun(profiles[0], levels, raises, outcome).finished {
        DriveFinishes(profiles[1..], levels, raises, outcome);
        assert forall i :: 1 <= i < |profiles| ==> profiles[1..][i - 1] == profiles[i];
      } else {
        var j :| 0 <= j < |levels| && raises(profiles[0], levels[j]);
      }
    }
  }

  /** No run of the suite raises. */
  predicate NoRaise(profiles: seq<Profile>, levels: seq<LoadLevel>, raises: (Profile, LoadLevel) -> bool) {
    forall i, j :: 0 <= i < |profiles| && 0 <= j < |levels| ==> !raises(profiles[i], levels[j])
  }

  /** When a run of one profile raises, the entries recorded are those of
      the levels before it. */
  lemma {:induction false} ProfileRunStops(p: Profile, levels: seq<LoadLevel>, raises: (Profile, LoadLevel) -> bool,
                                           outcome: (Profile, LoadLevel) -> Option<Stats>) returns (j: nat)
    requires !ProfileRun(p, levels, raises, outcome).finished
    ensures j < |levels| && raises(p, levels[j])
    ensures ProfileRun(p, levels, raises, outcome).entries == ProfileEntries(p, levels, outcome)[..j]
    decreases |levels|
  {
    if raises(p, levels[0]) {
      j := 0;
    } else {
      var k := ProfileRunStops(p, levels[1..], raises, outcome);
      j := k + 1;
      assert levels[1..][k] == levels[j];
      var e := EntryFor(p, levels[0], outcome);
      assert ProfileEntries(p, levels, outcome) == [e] + ProfileEntries(p, levels[1..], outcome);
    }
  }

  /** When a run raises, the driver has recorded exactly the entries of the
      runs before it in profile-major order, prints no feedback for it and
      never reaches the table. */
  lemma {:induction false} DriveStops(profiles: seq<Profile>, levels: seq<LoadLevel>,
                                      raises: (Profile, LoadLevel) -> bool,
                                      outcome: (Profile, LoadLevel) -> Option<Stats>) returns (i: nat, j: nat)
    requires !Drive(profiles, levels, raises, outcome).finished
    ensures i < |profiles| && j < |levels| && raises(profiles[i], levels[j])
    ensures Slot(i, |levels|, j) < |Suite(profiles, levels, outcome)|
    ensures Drive(profiles, levels, raises, outcome).entries == Suite(profiles, levels, outcome)[..Slot(i, |levels|, j)]
    decreases |profiles|
  {
    if !ProfileRun(profiles[0], levels, raises, outcome).finished {
      i := 0;
      j := StopsInFirst(profiles, levels, raises, outcome);
    } else {
      DriveUnfold(profiles, levels, raises, outcome);
      var i0, k := DriveStops(profiles[1..], levels, raises, outcome);
      i, j := StopsLater(profiles, levels, raises, outcome, i0, k);
    }
  }

  /** When no run raises, the driver records all 24 runs of its suite and
      goes on to the table. */
  lemma DriverRecordsAllRuns(raises: (Profile, LoadLevel) -> bool,
                             outcome: (Profile, LoadLevel) -> Option<Stats>)
    requires NoRaise(TestProfiles, LoadLevels, raises)
    ensures Drive(TestProfiles, LoadLevels, raises, outcome).finished
    ensures |Drive(TestProfiles, LoadLevels, raises, outcome).entries| == 24
  {
    DriveFinishes(TestProfiles, LoadLevels, raises, outcome);
    SuiteHasAllRuns(outcome);
  }

  /** The first profile's runs stop at a run that raises. */
  lemma StopsInFirst(profiles: seq<Profile>, levels: seq<LoadLevel>,
                     raises: (Profile, LoadLevel) -> bool,
                     outcome: (Profile, LoadLevel) -> Option<Stats>) returns (j: nat)
    requires profiles != [] && !ProfileRun(profiles[0], levels, raises, outcome).finished
    ensures j < |levels| && raises(profiles[0], levels[j])
    ensures j < |Suite(profiles, levels, outcome)|
    ensures Drive(profiles, levels, raises, outcome).entries == Suite(profiles, levels, outcome)[..j]
  {
    DriveUnfold(profiles, levels, raises, outcome);
    j := ProfileRunStops(profiles[0], levels, raises, outcome);
    PrefixBefore(ProfileEntries(profiles[0], levels, outcome), Suite(profiles[1..], levels, outcome), j);
  }

  /** The first profile's runs all complete, and a later profile's run at
      row `i0`, level `k` of the rest raises. */
  lemma StopsLater(profiles: seq<Profile>, levels: seq<LoadLevel>,
                   raises: (Profile, LoadLevel) -> bool,
                   outcome: (Profile, LoadLevel) -> Option<Stats>, i0: nat, k: nat) returns (i: nat, j: nat)
    requires profiles != [] && ProfileRun(profiles[0], levels, raises, outcome).finished
    requires i0 < |profiles| - 1 && k < |levels| && raises(profiles[1..][i0], levels[k])
    requires Slot(i0, |levels|, k) < |Suite(profiles[1..], levels, outcome)|
    requires Drive(profiles[1..], levels, raises, outcome).entries
             == Suite(profiles[1..], levels, outcome)[..Slot(i0, |levels|, k)]
    ensures i < |profiles| && j < |levels| && raises(profiles[i], levels[j])
    ensures Slot(i, |levels|, j) < |Suite(profiles, levels, outcome)|
    ensures Drive(profiles, levels, raises, outcome).entries == Suite(profiles, levels, outcome)[..Slot(i, |levels|, j)]
  {
    DriveUnfold(profiles, levels, raises, outcome);
    NextRow(i0, |levels|, k);
    PrefixAfter(ProfileEntries(profiles[0], levels, outcome), Suite(profiles[1..], levels, outcome),
                Drive(profiles[1..], levels, raises, outcome).entries,
                Suite(profiles, levels, outcome), Drive(profiles, levels, raises, outcome).entries,
                Slot(i0, |levels|, k));
    assert profiles[1..][i0] == profiles[i0 + 1];
    i, j := i0 + 1, k;
  }

  /** One step of the driver: the first profile's runs, then, if none of
      them raised, the rest. */
  lemma DriveUnfold(profiles: seq<Profile>, levels: seq<LoadLevel>,
                    raises: (Profile, LoadLevel) -> bool,
                    outcome: (Profile, LoadLevel) -> Option<Stats>)
    requires profiles != []
    ensures var first := ProfileRun(profiles[0], levels, raises, outcome);
            var head := ProfileEntries(profiles[0], levels, outcome);
            && Suite(profiles, levels, outcome) == head + Suite(profiles[1..], levels, outcome)
            && |head| == |levels|
            && (!first.finished ==> Drive(profiles, levels, raises, outcome).entries == first.entries)
            && (first.finished ==> Drive(profiles, levels, raises, outcome).entries
                                   == head + Drive(profiles[1..], levels, raises, outcome).entries)
  {
  }

  /** A prefix that stops inside `head` is a prefix of `head`. */
  lemma PrefixBefore<T>(head: seq<T>, tail: seq<T>, n: nat)
    requires n <= |head|
    ensures (head + tail)[..n] == head[..n]
  {
  }

  /** Position `j` of row `i` in a row-major layout with rows of `width`. */
  function Slot(i: nat, width: nat, j: nat): nat {
    i * width + j
  }

  /** Row `i + 1` of a row-major layout starts one row after row `i`. */
  lemma NextRow(i: nat, width: nat, j: nat)
    ensures Slot(i + 1, width, j) == width + Slot(i, width, j)
  {
  }

  /** A prefix that runs past `head` is `head` and then a prefix of `tail`. */
  lemma PrefixAfter<T>(head: seq<T>, tail: seq<T>, rest: seq<T>, whole: seq<T>, entries: seq<T>, n: nat)
    requires whole == head + tail && entries == head + rest
    requires n < |tail| && rest == tail[..n]
    ensures |head| + n < |whole| && entries == whole[..|head| + n]
  {
  }
}

=== FILE: text.dfy ===
/**
  The handful of Python string operations the cluster monitor relies on,
  restricted to ASCII: `str.strip()`, `str.split('\n')`, `str.split()`,
  `str.replace(c, '')`, `str.isdigit()` and `int(...)` on a digit string.
 */
module Text {

  /** The ASCII characters Python's `str.isspace()` accepts; `strip()` and
      `split()` without arguments use the same set. */
  predicate IsSpace(c: char) {
    c == ' ' || c == '\t' || c == '\n' || c == '\r' || c == '\U{000B}' || c == '\U{000C}'
    || c == '\U{001C}' || c == '\U{001D}' || c == '\U{001E}' || c == '\U{001F}'
  }

  /** A string made only of whitespace (the empty string included): exactly the
      strings whose `strip()` is falsy. */
  predicate IsBlank(s: string) {
    forall i :: 0 <= i < |s| ==> IsSpace(s[i])
  }

  predicate NoSpace(s: string) {
    forall i :: 0 <= i < |s| ==> !IsSpace(s[i])
  }

  // ---------------------------------------------------------------------------
  // strip()
  // ---------------------------------------------------------------------------

  /** How many whitespace characters `s` starts with. */
  function LeadingBlank(s: string): (n: nat)
    ensures n <= |s|
    ensures forall i :: 0 <= i < n ==> IsSpace(s[i])
    ensures n < |s| ==> !IsSpace(s[n])
    decreases |s|
  {
    if |s| > 0 && IsSpace(s[0]) then 1 + LeadingBlank(s[1..]) else 0
  }

  /** How many whitespace characters `s` ends with. */
  function TrailingBlank(s: string): (n: nat)
    ensures n <= |s|
    ensures forall i :: |s| - n <= i < |s| ==> IsSpace(s[i])
    ensures n < |s| ==> !IsSpace(s[|s| - n - 1])
    decreases |s|
  {
    if |s| > 0 && IsSpace(s[|s| - 1]) then 1 + TrailingBlank(s[..|s| - 1]) else 0
  }

  /** `s.strip()`: `s` without its leading and trailing whitespace. */
  function Strip(s: string): string {
    var t := s[LeadingBlank(s)..];
    t[..|t| - TrailingBlank(t)]
  }

  /** `s` is the stripped text with blank text on either side, and the
      stripped text neither starts nor ends with whitespace. */
  lemma StripDecomposes(s: string) returns (lead: string, trail: string)
    ensures IsBlank(lead) && IsBlank(trail)
    ensures s == lead + Strip(s) + trail
    ensures |Strip(s)| > 0 ==> !IsSpace(Strip(s)[0]) && !IsSpace(Strip(s)[|Strip(s)| - 1])
  {
    var a := LeadingBlank(s);
    var t := s[a..];
    var b := TrailingBlank(t);
    lead := s[..a];
    trail := t[|t| - b..];
    BlankLead(s);
    BlankTrail(t);
    Reassemble(s, a, |t| - b);
    StripEnds(s);
  }

  /** The whitespace `strip()` removes in front is blank. */
  lemma BlankLead(s: string)
    ensures IsBlank(s[..LeadingBlank(s)])
  {
    var lead := s[..LeadingBlank(s)];
    forall i | 0 <= i < |lead| ensures IsSpace(lead[i]) {
      assert lead[i] == s[i];
    }
  }

  /** The whitespace `strip()` removes at the end is blank. */
  lemma BlankTrail(t: string)
    ensures IsBlank(t[|t| - TrailingBlank(t)..])
  {
    var b := TrailingBlank(t);
    var trail := t[|t| - b..];
    forall i | 0 <= i < |trail| ensures IsSpace(trail[i]) {
      assert trail[i] == t[|t| - b + i];
    }
  }

  /** Cutting a string at two points and gluing the three parts back. */
  lemma Reassemble(s: string, a: nat, k: nat)
    requires a <= |s| && k <= |s| - a
    ensures s == s[..a] + s[a..][..k] + s[a..][k..]
  {
    var t := s[a..];
    assert t[..k] + t[k..] == t;
    assert s[..a] + t == s;
  }

  /** The stripped text starts and ends with non-whitespace. */
  lemma StripEnds(s: string)
    ensures |Strip(s)| > 0 ==> !IsSpace(Strip(s)[0]) && !IsSpace(Strip(s)[|Strip(s)| - 1])
  {
    var a := LeadingBlank(s);
    var t := s[a..];
    var b := TrailingBlank(t);
    var r := t[..|t| - b];
    if |r| > 0 {
      assert r[0] == s[a];
      assert r[|r| - 1] == t[|t| - b - 1];
    }
  }

  // ---------------------------------------------------------------------------
  // split(sep)
  // ---------------------------------------------------------------------------

  /** `s.split(sep)` for a one-character separator: the maximal separator-free
      pieces, including empty ones; `"".split(sep)` is `[""]`. */
  function SplitOn(s: string, sep: char): (pieces: seq<string>)
    ensures |pieces| >= 1
    decreases |s|
  {
    if |s| == 0 then [""]
    else
      var rest := SplitOn(s[1..], sep);
      if s[0] == sep then [""] + rest
      else [[s[0]] + rest[0]] + rest[1..]
  }

  /** `sep.join(pieces)`. */
  function JoinWith(pieces: seq<string>, sep: char): string
    requires |pieces| >= 1
    decreases |pieces|
  {
    if |pieces| == 1 then pieces[0] else pieces[0] + [sep] + JoinWith(pieces[1..], sep)
  }

  /** Splitting loses nothing: joining the pieces back gives the text, and no
      piece contains the separator. */
  lemma {:induction false} SplitJoinRoundTrip(s: string, sep: char)
    ensures JoinWith(SplitOn(s, sep), sep) == s
    ensures forall k :: 0 <= k < |SplitOn(s, sep)| ==> sep !in SplitOn(s, sep)[k]
    decreases |s|
  {
    if |s| > 0 {
      SplitJoinRoundTrip(s[1..], sep);
      var rest := SplitOn(s[1..], sep);
      if s[0] == sep {
        assert SplitOn(s, sep) == [""] + rest;
        assert SplitOn(s, sep)[1..] == rest;
      } else {
        var ps := SplitOn(s, sep);
        assert ps == [[s[0]] + rest[0]] + rest[1..];
        if |rest| == 1 {
          assert ps == [[s[0]] + rest[0]];
        } else {
          assert ps[1..] == rest[1..];
          assert JoinWith(rest, sep) == rest[0] + [sep] + JoinWith(rest[1..], sep);
        }
        forall k | 0 <= k < |ps|
          ensures sep !in ps[k]
        {
          if k > 0 {
            assert ps[k] == rest[k];
          }
        }
      }
    }
  }

  /** One step of `SplitOn`, stated for a text with a known first character. */
  lemma SplitOnCons(c: char, s: string, sep: char)
    ensures var rest := SplitOn(s, sep);
            SplitOn([c] + s, sep)
            == if c == sep then [""] + rest else [[c] + rest[0]] + rest[1..]
  {
    assert ([c] + s)[0] == c;
    assert ([c] + s)[1..] == s;
  }

  /** Splitting a concatenation: the last piece of the left part is glued to
      the first piece of the right part. */
  lemma {:induction false} SplitOnAppend(x: string, y: string, sep: char)
    ensures var px := SplitOn(x, sep);
            var py := SplitOn(y, sep);
            SplitOn(x + y, sep) == px[..|px| - 1] + [px[|px| - 1] + py[0]] + py[1..]
    decreases |x|
  {
    var px := SplitOn(x, sep);
    var py := SplitOn(y, sep);
    if |x| == 0 {
      assert x + y == y;
      assert px == [""];
      assert "" + py[0] == py[0];
      assert py == [py[0]] + py[1..];
    } else {
      var c := x[0];
      var tail := x[1..];
      assert x == [c] + tail;
      assert x + y == [c] + (tail + y);
      SplitOnAppend(tail, y, sep);
      SplitOnConsAppend(c, tail, y, sep);
    }
  }

  /** The inductive step of `SplitOnAppend`: one more character in front. */
  lemma SplitOnConsAppend(c: char, tail: string, y: string, sep: char)
    requires var pt := SplitOn(tail, sep);
             var py := SplitOn(y, sep);
             SplitOn(tail + y, sep) == pt[..|pt| - 1] + [pt[|pt| - 1] + py[0]] + py[1..]
    ensures var px := SplitOn([c] + tail, sep);
            var py := SplitOn(y, sep);
            SplitOn([c] + (tail + y), sep) == px[..|px| - 1] + [px[|px| - 1] + py[0]] + py[1..]
  {
    var pt := SplitOn(tail, sep);
    var py := SplitOn(y, sep);
    var glued := [pt[|pt| - 1] + py[0]];
    SplitOnCons(c, tail, sep);
    SplitOnCons(c, tail + y, sep);
    if c == sep {
      SeqAssoc3([""], pt[..|pt| - 1], glued, py[1..]);
      assert SplitOn([c] + tail, sep)[..|pt|] == [""] + pt[..|pt| - 1];
    } else if |pt| == 1 {
      assert [c] + (pt[0] + py[0]) == ([c] + pt[0]) + py[0];
    } else {
      GlueFirstPiece(c, pt, glued, py[1..]);
    }
  }

  /** Gluing a character onto the first of several pieces commutes with
      appending more pieces at the end. */
  lemma GlueFirstPiece(c: char, pt: seq<string>, glued: seq<string>, rest: seq<string>)
    requires |pt| > 1
    ensures var r := pt[..|pt| - 1] + glued + rest;
            var px := [[c] + pt[0]] + pt[1..];
            [[c] + r[0]] + r[1..] == px[..|px| - 1] + glued + rest
  {
    var mid := pt[1..|pt| - 1];
    var r := pt[..|pt| - 1] + glued + rest;
    var px := [[c] + pt[0]] + pt[1..];
    assert pt[..|pt| - 1] == [pt[0]] + mid;
    SeqAssoc3([pt[0]], mid, glued, rest);
    assert r[0] == pt[0];
    assert r[1..] == mid + glued + rest;
    SeqAssoc3([[c] + pt[0]], mid, glued, rest);
    assert px[..|px| - 1] == [[c] + pt[0]] + mid;
  }

  lemma SeqAssoc3<T>(a: seq<T>, b: seq<T>, g: seq<T>, t: seq<T>)
    ensures a + b + g + t == a + (b + g + t)
  {
  }

  /** Every piece of blank text is blank. */
  lemma {:induction false} SplitBlankPieces(w: string, sep: char)
    requires IsBlank(w)
    ensures forall k :: 0 <= k < |SplitOn(w, sep)| ==> IsBlank(SplitOn(w, sep)[k])
    decreases |w|
  {
    if |w| > 0 {
      SplitBlankPieces(w[1..], sep);
      var rest := SplitOn(w[1..], sep);
      var ps := SplitOn(w, sep);
      if w[0] != sep {
        assert ps[0] == [w[0]] + rest[0];
        forall k | 0 < k < |ps|
          ensures IsBlank(ps[k])
        {
          assert ps[k] == rest[k];
        }
      } else {
        forall k | 0 < k < |ps|
          ensures IsBlank(ps[k])
        {
          assert ps[k] == rest[k - 1];
        }
      }
    }
  }

  // ---------------------------------------------------------------------------
  // Non-blank lines: [l for l in lines if l.strip()]
  // ---------------------------------------------------------------------------

  /** The lines whose `strip()` is non-empty, in their original order. */
  function NonBlank(lines: seq<string>): (kept: seq<string>)
    ensures |kept| <= |lines|
    decreases |lines|
  {
    if |lines| == 0 then []
    else if IsBlank(lines[0]) then NonBlank(lines[1..])
    else [lines[0]] + NonBlank(lines[1..])
  }

  lemma {:induction false} NonBlankAppend(a: seq<string>, b: seq<string>)
    ensures NonBlank(a + b) == NonBlank(a) + NonBlank(b)
    decreases |a|
  {
    if |a| > 0 {
      assert (a + b)[1..] == a[1..] + b;
      NonBlankAppend(a[1..], b);
    } else {
      assert a + b == b;
    }
  }

  lemma {:induction false} NonBlankOfBlanks(lines: seq<string>)
    requires forall k :: 0 <= k < |lines| ==> IsBlank(lines[k])
    ensures NonBlank(lines) == []
    decreases |lines|
  {
    if |lines| > 0 {
      NonBlankOfBlanks(lines[1..]);
    }
  }

  /** The non-blank lines of `text.strip().split('\n')`, as the monitor builds
      them before counting or parsing. */
  function Lines(text: string): seq<string> {
    NonBlank(SplitOn(Strip(text), '\n'))
  }

  /** Blank text glued in front of a string does not change whether it is blank. */
  lemma GlueBlankFront(w: string, x: string)
    requires IsBlank(w)
    ensures IsBlank(w + x) <==> IsBlank(x)
  {
    if IsBlank(w + x) {
      assert forall i :: 0 <= i < |x| ==> x[i] == (w + x)[i + |w|];
    }
  }

  /** Blank text glued after a string does not change whether it is blank. */
  lemma GlueBlankBack(x: string, w: string)
    requires IsBlank(w)
    ensures IsBlank(x + w) <==> IsBlank(x)
  {
    if IsBlank(x + w) {
      assert forall i :: 0 <= i < |x| ==> x[i] == (x + w)[i];
    }
  }

  /** Counting non-blank lines around one distinguished line. */
  lemma CountAround(init: seq<string>, g: string, tail: seq<string>)
    ensures |NonBlank(init + [g] + tail)|
         == |NonBlank(init)| + (if IsBlank(g) then 0 else 1) + |NonBlank(tail)|
  {
    NonBlankAppend(init + [g], tail);
    NonBlankAppend(init, [g]);
  }

  /** Splitting blank text: all pieces but the last give no non-blank line,
      and the last piece is blank. */
  lemma BlankPiecesFront(w: string)
    requires IsBlank(w)
    ensures var pw := SplitOn(w, '\n');
            NonBlank(pw[..|pw| - 1]) == [] && IsBlank(pw[|pw| - 1])
  {
    var pw := SplitOn(w, '\n');
    SplitBlankPieces(w, '\n');
    NonBlankOfBlanks(pw[..|pw| - 1]);
  }

  /** Splitting blank text: the first piece is blank, and the others give no
      non-blank line. */
  lemma BlankPiecesBack(w: string)
    requires IsBlank(w)
    ensures var pw := SplitOn(w, '\n');
            IsBlank(pw[0]) && NonBlank(pw[1..]) == []
  {
    var pw := SplitOn(w, '\n');
    SplitBlankPieces(w, '\n');
    NonBlankOfBlanks(pw[1..]);
  }

  /** Blank text in front of a text does not change its number of non-blank lines. */
  lemma BlankPrefixKeepsCount(w: string, x: string)
    requires IsBlank(w)
    ensures |NonBlank(SplitOn(w + x, '\n'))| == |NonBlank(SplitOn(x, '\n'))|
  {
    var pw := SplitOn(w, '\n');
    var px := SplitOn(x, '\n');
    BlankPiecesFront(w);
    SplitOnAppend(w, x, '\n');
    GlueBlankFront(pw[|pw| - 1], px[0]);
    CountAround(pw[..|pw| - 1], pw[|pw| - 1] + px[0], px[1..]);
    CountAround([], px[0], px[1..]);
    assert px == [] + [px[0]] + px[1..];
  }

  /** Blank text after a text does not change its number of non-blank lines. */
  lemma BlankSuffixKeepsCount(x: string, w: string)
    requires IsBlank(w)
    ensures |NonBlank(SplitOn(x + w, '\n'))| == |NonBlank(SplitOn(x, '\n'))|
  {
    BlankPiecesBack(w);
    SplitOnAppend(x, w, '\n');
    CountGlued(SplitOn(x, '\n'), SplitOn(w, '\n'), SplitOn(x + w, '\n'));
  }

  /** Gluing a blank first piece onto the last of some lines, and following
      them with lines that are all blank, keeps the number of non-blank lines. */
  lemma CountGlued(px: seq<string>, pw: seq<string>, glued: seq<string>)
    requires |px| >= 1 && |pw| >= 1
    requires IsBlank(pw[0]) && NonBlank(pw[1..]) == []
    requires glued == px[..|px| - 1] + [px[|px| - 1] + pw[0]] + pw[1..]
    ensures |NonBlank(glued)| == |NonBlank(px)|
  {
    var init := px[..|px| - 1];
    var last := px[|px| - 1];
    GlueBlankBack(last, pw[0]);
    CountAround(init, last + pw[0], pw[1..]);
    CountLast(px);
  }

  /** The non-blank lines of some lines: those before the last, and the last
      one unless it is blank. */
  lemma CountLast(px: seq<string>)
    requires |px| >= 1
    ensures |NonBlank(px)| == |NonBlank(px[..|px| - 1])| + (if IsBlank(px[|px| - 1]) then 0 else 1)
  {
    var init := px[..|px| - 1];
    var last := px[|px| - 1];
    CountAround(init, last, []);
    assert init + [last] + [] == px;
  }

  /** The `strip()` before `split('\n')` never changes the number of
      non-blank lines: it equals the number of non-blank lines of the raw text. */
  lemma StripKeepsLineCount(text: string)
    ensures |Lines(text)| == |NonBlank(SplitOn(text, '\n'))|
  {
    var lead, trail := StripDecomposes(text);
    CountThroughStrip(text, lead, Strip(text), trail);
  }

  /** Blank text around a core never changes the number of non-blank lines. */
  lemma CountThroughStrip(text: string, lead: string, core: string, trail: string)
    requires IsBlank(lead) && IsBlank(trail)
    requires text == lead + core + trail
    ensures |NonBlank(SplitOn(text, '\n'))| == |NonBlank(SplitOn(core, '\n'))|
  {
    assert text == lead + (core + trail);
    BlankPrefixKeepsCount(lead, core + trail);
    BlankSuffixKeepsCount(core, trail);
  }

  // ---------------------------------------------------------------------------
  // split() with no argument
  // ---------------------------------------------------------------------------

  /** Length of the run of non-whitespace characters that starts `s`. */
  function WordLength(s: string): (n: nat)
    ensures n <= |s|
    ensures NoSpace(s[..n])
    ensures n < |s| ==> IsSpace(s[n])
    decreases |s|
  {
    if |s| == 0 || IsSpace(s[0]) then 0 else 1 + WordLength(s[1..])
  }

  /** `s.split()`: the maximal runs of non-whitespace characters, in order. */
  function Tokens(s: string): (ts: seq<string>)
    ensures forall k :: 0 <= k < |ts| ==> |ts[k]| > 0 && NoSpace(ts[k])
    decreases |s|
  {
    if |s| == 0 then []
    else if IsSpace(s[0]) then Tokens(s[1..])
    else
      var n := WordLength(s);
      [s[..n]] + Tokens(s[n..])
  }

  lemma {:induction false} WordLengthOfWord(t: string, rest: string)
    requires NoSpace(t)
    requires |rest| == 0 || IsSpace(rest[0])
    ensures WordLength(t + rest) == |t|
    decreases |t|
  {
    if |t| > 0 {
      assert (t + rest)[1..] == t[1..] + rest;
      WordLengthOfWord(t[1..], rest);
    } else {
      assert t + rest == rest;
    }
  }

  /** A word followed by whitespace or by nothing is the first token. */
  lemma TokensWordEnd(w: string, tail: string)
    requires |w| > 0 && NoSpace(w)
    requires |tail| == 0 || IsSpace(tail[0])
    ensures Tokens(w + tail) == [w] + Tokens(tail)
  {
    var s := w + tail;
    WordLengthOfWord(w, tail);
    assert s[0] == w[0];
    assert s[..|w|] == w;
    assert s[|w|..] == tail;
  }

  /** A word and a run of whitespace in front of some text: the word is the
      first token and the run is skipped. */
  lemma TokensWordGap(w: string, g: string, rest: string)
    requires |w| > 0 && NoSpace(w)
    requires |g| > 0 && IsBlank(g)
    ensures Tokens(w + g + rest) == [w] + Tokens(rest)
  {
    assert w + g + rest == w + (g + rest);
    assert (g + rest)[0] == g[0];
    TokensWordEnd(w, g + rest);
    TokensSkipBlank(g, rest);
  }

  /** Words each followed by its own run of whitespace, as a table row is
      padded into columns; only the run after the last word may be empty. */
  function Padded(words: seq<string>, gaps: seq<string>): string
    requires |gaps| == |words|
    decreases |words|
  {
    if |words| == 0 then "" else words[0] + gaps[0] + Padded(words[1..], gaps[1..])
  }

  /** The runs of whitespace `Padded` may put after each word. */
  predicate GoodGaps(gaps: seq<string>) {
    && (forall k :: 0 <= k < |gaps| ==> IsBlank(gaps[k]))
    && (forall k :: 0 <= k < |gaps| - 1 ==> |gaps[k]| > 0)
  }

  /** Words that are non-empty and hold no whitespace. */
  predicate Words(words: seq<string>) {
    forall k :: 0 <= k < |words| ==> |words[k]| > 0 && NoSpace(words[k])
  }

  /** `split()` gives back the words however wide the whitespace between
      them, and whatever whitespace precedes the first or follows the last. */
  lemma {:induction false} TokensPadded(lead: string, words: seq<string>, gaps: seq<string>)
    requires IsBlank(lead) && Words(words)
    requires |gaps| == |words| && GoodGaps(gaps)
    ensures Tokens(lead + Padded(words, gaps)) == words
    decreases |words|
  {
    TokensSkipBlank(lead, Padded(words, gaps));
    if |words| == 0 {
      assert Tokens("") == [];
    } else {
      PaddedTail(words, gaps);
      TokensPadded("", words[1..], gaps[1..]);
      assert "" + Padded(words[1..], gaps[1..]) == Padded(words[1..], gaps[1..]);
      TokensPaddedStep(words, gaps);
    }
  }

  /** One step of `TokensPadded`: the first word, then the tokens of the rest. */
  lemma TokensPaddedStep(words: seq<string>, gaps: seq<string>)
    requires |words| > 0 && |gaps| == |words| && Words(words) && GoodGaps(gaps)
    requires Tokens(Padded(words[1..], gaps[1..])) == words[1..]
    ensures Tokens(Padded(words, gaps)) == words
  {
    var w, g := words[0], gaps[0];
    var rest := Padded(words[1..], gaps[1..]);
    assert Padded(words, gaps) == w + g + rest;
    if |words| == 1 {
      assert rest == "";
      LastWord(w, g);
    } else {
      TokensWordGap(w, g, rest);
    }
  }

  /** Every text that is empty or starts with a non-whitespace character is
      some words, each followed by its own run of whitespace. */
  lemma {:induction false} PaddedDecomposes(s: string) returns (words: seq<string>, gaps: seq<string>)
    requires |s| == 0 || !IsSpace(s[0])
    ensures Words(words) && |gaps| == |words| && GoodGaps(gaps)
    ensures s == Padded(words, gaps)
    decreases |s|
  {
    if |s| == 0 {
      words, gaps := [], [];
    } else {
      var n := WordLength(s);
      var after := s[n..];
      var m := LeadingBlank(after);
      var w, g, rest := s[..n], after[..m], after[m..];
      assert n > 0;
      var ws, gs := PaddedDecomposes(rest);
      words, gaps := [w] + ws, [g] + gs;
      assert words[1..] == ws && gaps[1..] == gs;
      assert s == w + g + rest;
      assert |rest| > 0 ==> |g| > 0;
      assert forall k :: 1 <= k < |gaps| ==> gaps[k] == gs[k - 1];
      assert forall k :: 1 <= k < |words| ==> words[k] == ws[k - 1];
    }
  }

  /** Dropping the first word and its gap keeps both well formed. */
  lemma PaddedTail(words: seq<string>, gaps: seq<string>)
    requires |words| > 0 && |gaps| == |words| && Words(words) && GoodGaps(gaps)
    ensures Words(words[1..]) && GoodGaps(gaps[1..])
  {
    assert forall k :: 0 <= k < |words| - 1 ==> words[1..][k] == words[k + 1];
    assert forall k :: 0 <= k < |gaps| - 1 ==> gaps[1..][k] == gaps[k + 1];
  }

  /** The last word and the whitespace after it give that word alone. */
  lemma LastWord(w: string, g: string)
    requires |w| > 0 && NoSpace(w) && IsBlank(g)
    ensures Tokens(w + g + "") == [w]
  {
    assert w + g + "" == w + g;
    TokensWordEnd(w, g);
    TokensSkipBlank(g, "");
    assert g + "" == g;
  }

  /** Leading whitespace never changes the tokens. */
  lemma {:induction false} TokensSkipBlank(w: string, s: string)
    requires IsBlank(w)
    ensures Tokens(w + s) == Tokens(s)
    decreases |w|
  {
    if |w| > 0 {
      assert (w + s)[1..] == w[1..] + s;
      TokensSkipBlank(w[1..], s);
    } else {
      assert w + s == s;
    }
  }

  // ---------------------------------------------------------------------------
  // replace(c, ''), isdigit(), int()
  // ---------------------------------------------------------------------------

  /** `s.replace(c, '')`: every occurrence of `c` removed, the rest kept. */
  function RemoveAll(s: string, c: char): (r: string)
    ensures c !in r
    ensures multiset(r) == multiset(s)[c := 0]
    ensures c !in s ==> r == s
    decreases |s|
  {
    if |s| == 0 then ""
    else
      assert s == [s[0]] + s[1..];
      (if s[0] == c then "" else [s[0]]) + RemoveAll(s[1..], c)
  }

  lemma {:induction false} RemoveAllAppend(a: string, b: string, c: char)
    ensures RemoveAll(a + b, c) == RemoveAll(a, c) + RemoveAll(b, c)
    decreases |a|
  {
    if |a| > 0 {
      assert (a + b)[1..] == a[1..] + b;
      RemoveAllAppend(a[1..], b, c);
    } else {
      assert a + b == b;
    }
  }

  predicate IsDigit(c: char) {
    '0' <= c <= '9'
  }

  predicate AllDigits(s: string) {
    forall i :: 0 <= i < |s| ==> IsDigit(s[i])
  }

  /** `s.isdigit()`: non-empty and nothing but digits. */
  predicate IsDigitString(s: string) {
    |s| > 0 && AllDigits(s)
  }

  /** `int(s)` for a string of decimal digits (leading zeros allowed). */
  function DecimalValue(s: string): nat
    requires AllDigits(s)
    decreases |s|
  {
    if |s| == 0 then 0
    else DecimalValue(s[..|s| - 1]) * 10 + (s[|s| - 1] as int - '0' as int)
  }

  /** `str(n)` for a natural number. */
  function DecimalString(n: nat): (s: string)
    ensures IsDigitString(s)
    decreases n
  {
    var d := ['0' + (n % 10) as char];
    if n < 10 then d else DecimalString(n / 10) + d
  }

  lemma {:induction false} DecimalRoundTrip(n: nat)
    ensures DecimalValue(DecimalString(n)) == n
    decreases n
  {
    var s := DecimalString(n);
    if n >= 10 {
      DecimalRoundTrip(n / 10);
      assert s[..|s| - 1] == DecimalString(n / 10);
    }
  }
}
